=== FILE: README.md ===
# WedgeUp's pickle database, modelled in Dafny

WedgeUp backs a directory tree up onto removable drives ("wedges") and keeps
its bookkeeping in `PickleDatabase`, a small on-disk key/value store. The store
keeps two files. A header file records the path of a data file and the MD5 sum
of that file. The data file holds the pickled dictionary. `open` reads the
header, checks the data file's checksum against it when verification is on,
and only then loads the dictionary. `commit` writes the dictionary first and
then rewrites the header with the new checksum. `commit(loc)` writes a snapshot
next to `loc`. `create` writes an empty database.

This project models that class as pure transitions:

- `outcomes.dfy` (`Outcomes`): the `None`-able arguments, and one error variant
  per exception the class raises or lets escape.
- `filestore.dfy` (`FileStore`): the file system as a map from paths to
  contents. A file holds a data map, a header, or nothing: the empty file a
  write leaves when its dump raises. It also gives the checksum type and the
  decimal suffix `str(n)` that data file names carry.
- `pickledb.dfy` (`PickleDb`): the object state `Db` and every method of the
  class. Each method maps an object and a store to a `Step`: the new object,
  the new store, and the value returned or the exception raised. A Python
  exception does not undo what was assigned or written before it, so a failed
  step may still carry changes. For example, a failed `open` has still replaced
  the header path, and a `commit` after an `open` that read the header and then
  failed still truncates the data file.
- `properties.dfy` (`PickleDbProperties`): lemmas about sequences of calls.
  They cover the round trips `commit`/`create` → `open` and
  create → open → set → reopen, what verification catches, and what
  `commit(loc)` leaves behind.

The checksum is a parameter `csum` that maps file contents to a digest; the
model never relies on MD5. The random suffix is a parameter `n` bounded like
`random.randint(0, 100000000000)`.

The model follows the code as written, including where it looks unintended:

- The constructor's flags are inverted. Verification and autocommit are on only
  when their argument is `None`, so `verification=True` turns verification off
  (`PickleDb.New`, `PickleDbProperties.TamperedDataFile`).
- Getting an absent key raises Python's built-in `KeyError`, not
  `PKeyNotFound`. Only a `None` key raises `PKeyNotFound`, and that check comes
  before the open check (`PickleDb.Get`).
- `commit()` overwrites the data file in place before it rewrites the header.
  If the run stops between the two writes and the new map's checksum differs
  from the one the old header records, the old header no longer matches, and a
  verified `open` refuses the store. The older data is not kept
  (`PickleDbProperties.CrashBetweenWrites`).
- The header that `commit(loc)` writes still names the primary data file, but
  with the checksum of the new copy. Writing it also replaces the checksum in
  the in-memory header, because that header is the same object. So the
  snapshot only opens while the primary data file matches, and never reads the
  copy (`PickleDbProperties.SnapshotReadsPrimary`).
- `__iter__` is a lazy generator. The model returns the key set
  (see "Left out").

## Model

| member | source | states |
|---|---|---|
| FileStore.ReadHeader | src/pickledb.py:74-77 | reading the header path succeeds exactly when it holds a header; an absent file is FileNotFound, an empty file EOFError, a data map an unpickling error |
| FileStore.ReadData | src/pickledb.py:80-83 | loading the data file succeeds exactly when it holds a data map, and yields that map; an absent file is FileNotFound, an empty file EOFError, a header an unpickling error |
| FileStore.FileDigest | src/pickledb.py:89-102 | the checksum of a path is the checksum of the file there, and fails exactly when the file is absent |
| FileStore.Dump | src/pickledb.py:182-185 | a dump writes only its own path; the file then holds the map, or is left empty when there is no map to pickle |
| FileStore.DecimalRoundTrip | src/pickledb.py:152 | reading the digits of `str(n)` back gives `n` |
| FileStore.Decimal | src/pickledb.py:152 | `str(n)` of the suffix is a non-empty string of digits with no leading zero unless n is 0 |
| FileStore.DecimalInjective | src/pickledb.py:152 | two different suffixes never render as the same string |
| FileStore.SnapshotPath | src/pickledb.py:152 | a data file name starts with the header path it belongs to, is longer than it, and ends in `.pdata` |
| FileStore.SnapshotPathInjective | src/pickledb.py:202 | a data file name never equals its header path, and different suffixes give different names |
| PickleDb.New | src/pickledb.py:41-58 | verification and autocommit are on exactly when their argument is `None`; the new object is closed, has nothing loaded, and is in a reachable state |
| PickleDb.Verify | src/pickledb.py:105-122 | with verification off, every header passes; with it on, an absent data file is PVerficationError, and otherwise the header passes exactly when its checksum agrees with the data file's |
| PickleDb.Open | src/pickledb.py:60-87 | an open database refuses with PDatabaseAlreadyOpen and nothing changes; with no path known it refuses with PNoDatabaseGiven; a given path replaces the stored one; success happens exactly when the header's data file loads and, if verification is on, matches; success loads exactly that map; a verified mismatch is PVerficationFalse; an unreadable header is reported with its read error and no header is kept; a header that was read stays assigned even when the open then fails; under verification a missing data file is PVerficationError; a data file that fails to load after the header passed is reported with its read error (FileNotFound for an absent file, EOFError for an empty one); a failure loads nothing and leaves the database closed; the store is never written |
| PickleDb.Get | src/pickledb.py:124-133 | a `None` key is PKeyNotFound before the open check; a closed database is PDatabaseNotOpen; on an open database a present key yields its stored value and an absent key is KeyError |
| PickleDb.Set | src/pickledb.py:135-146 | a `None` key is PKeyNotFound before the open check; a closed database is PDatabaseNotOpen; on an open database, getting the key afterwards gives the value and every other key reads as before; without autocommit no file is written; without autocommit the in-memory header is unchanged; with autocommit only the data file and the header file are written, and when the header file is not its own data file, the new map is on disk under a header that agrees with it |
| PickleDb.CommitPrimary | src/pickledb.py:182-195 | only the data file and the header file are written; the header on disk equals the in-memory header, which keeps its data path; unless the header path is the data path, the data file holds the map and its checksum is the header's; with no header the error is AttributeError and nothing is written; with a header but no data the data file is left empty, the error is AttributeError, and the object, header included, is unchanged |
| PickleDb.CommitLoc | src/pickledb.py:148-169 | only `loc` and `loc + str(n) + '.pdata'` are written; the copy holds the map; the header at `loc` names the primary data path under the copy's checksum; the in-memory header takes that same checksum; the data in memory is unchanged; with no data loaded the copy is left empty |
| PickleDb.Commit | src/pickledb.py:171-180 | with a location, only the snapshot's two files are written, and it succeeds exactly when header and data are loaded, leaving the map in the copy and at the location a header naming the primary data path under the copy's checksum; without one, only the primary pair, and with header and data loaded and the header file not its own data file, the header then agrees with the data file; no commit changes the data in memory or the open flag |
| PickleDb.Create | src/pickledb.py:197-213 | writes an empty data map under `filename + str(n) + '.pdata'` and, at `filename`, a header naming that file whose checksum agrees with it; nothing else is written |
| PickleDb.Contains | src/pickledb.py:215-223 | a closed database raises PDatabaseNotOpen; on an open one, `key in db` is true exactly when `db[key]` succeeds; `None` is never a member |
| PickleDb.Iter | src/pickledb.py:226-233 | a closed database raises PDatabaseNotOpen; on an open one, the keys yielded are exactly those `key in db` accepts |
| PickleDbProperties.CommitThenOpen | src/pickledb.py:182-195 | after `commit()`, when the header file is not its own data file, a new object opening the header path, with any flags, loads the same map and the same header |
| PickleDbProperties.CreateThenOpen | src/pickledb.py:197-213 | a created database opens, verified or not, to the empty map under a header naming its data file |
| PickleDbProperties.SetThenReopen | src/pickledb.py:144-146 | with autocommit, and when the header file is not its own data file, an assignment is read back by a new object reopening the header path |
| PickleDbProperties.CreateOpenSetReopen | src/pickledb.py:60-87 | create, open, assign with default flags, reopen in a new object: the assigned value is read back |
| PickleDbProperties.CrashBetweenWrites | src/pickledb.py:182-195 | if commit stops after the data write and the new map's checksum differs from the old one, a verified open of the store fails with PVerficationFalse |
| PickleDbProperties.TamperedDataFile | src/pickledb.py:45-48 | replacing the committed data file by one with another checksum makes a default-flag open fail with PVerficationFalse and load nothing; an object built with any `verification` value, `True` included, loads the replacement |
| PickleDbProperties.SnapshotReadsPrimary | src/pickledb.py:163-168 | opening a snapshot header succeeds exactly when the primary data file holds a map with the same checksum as the map in memory, and it loads the primary file; with the primary file gone it fails with PVerficationError |
| PickleDbProperties.SnapshotsKeepEarlierCopies | src/pickledb.py:152-157 | two snapshots at one location with different suffixes, with an assignment between them, keep both copies, each with the map of its own time; with autocommit this holds whenever the first copy is neither primary file |
| PickleDbProperties.SnapshotThenCommit | src/pickledb.py:163-164 | the checksum that `commit(loc)` puts into the in-memory header is replaced by the next `commit()`, so the primary round trip still holds |
| PickleDbProperties.FailedOpenThenCommitTruncates | src/pickledb.py:76-87 | after a verified open refuses a mismatched data file, `commit()` fails with AttributeError but leaves the data file empty, and an unverified open of the header then fails with EOFError |
| PickleDbProperties.OpenOnce | src/pickledb.py:65-66 | after a successful open, every further open raises PDatabaseAlreadyOpen and changes neither the object nor the store |

## Left out

- Pickle encoding and MD5 (src/pickledb.py:89-102): the checksum is a parameter. The model does not use collision freedom; lemmas that need two contents to differ assume it.
- The 40-byte read block of `__md5` (`bs=2*20`): it has no effect on the digest.
- Random suffix generation (src/pickledb.py:152, 202): the suffix is a parameter. Nothing stops a suffix from naming a file that already exists, and the model overwrites it just as the code does.
- Write failures (permissions, missing directories, full disks): writes in the model always succeed. Read failures are modelled only as a missing file.
- File handle lifecycle: `create` never closes its header handle, so the model treats the header as written when `create` returns. The unreachable `hhandle.close()` in `__contains__` (src/pickledb.py:224) is not modelled.
- A header file that holds some other pickled object: the model's header files always hold a header record. In Python a header file holding a pickled `None` reaches src/pickledb.py:114 when verification is on, and raises NameError there, because `PVerificationError` is an undefined name. The model has no such file and no NameError.
- The catch-all `except:` in `__verify` turns any failure while checksumming into PVerficationError. The only such failure the model has is a missing data file.
- Python's dynamic typing: the model reports UnpicklingError when a file holds the other kind of record than the one being loaded, and Python does not. With verification off, a header file named as the data file is loaded by `open` (src/pickledb.py:81-85) as the data dictionary, and `open` returns True. A data map read as the header is used as the header: when it has no `'data'` key, `open` fails with KeyError (PVerficationError under verification), and otherwise it goes on to read the file that key names (src/pickledb.py:81, 116). An empty file raises EOFError in both Python and the model.
- Keys are any type with equality, standing for hashable Python objects. A loaded map cannot contain a `None` key.
- `__iter__` is a lazy generator: its open check runs at the first `next`, and mutating the dictionary during iteration raises `RuntimeError`. The model checks at the call and returns the key set.
- The rest of WedgeUp, src/wedgeup.py (option parsing, config reading) and src/wedges.py (`csum`, `decode_json`), is plumbing over library calls. Change detection, disk allocation and the copy executor are not part of this model: WedgeUp's source does not implement them.
- Shared references: `db[key]` returns the stored object itself (src/pickledb.py:133) and `db[key] = value` stores `value` itself (src/pickledb.py:144). Mutating a stored value in place therefore changes the in-memory map without a call to `__setitem__`, so autocommit does not run. The model's values are plain values, so this cannot happen in it.
- Values that pickle cannot serialise: `pickle.dump` at src/pickledb.py:184 then raises after line 183 has already truncated the data file, which leaves the old header over a broken file. In the model a dump of a loaded map always succeeds, so a commit with a header and data loaded, and the commit inside an autocommit assignment, always return Ok.
- Checksums of pickle bytes: the model takes a data file's checksum as a function of the map it holds (`csum(DataFile(m))`). MD5 in the source covers the pickled bytes, which also depend on the dictionary's insertion order and the pickle protocol. So two equal maps pickled differently could have different checksums in Python. `PickleDbProperties.SnapshotReadsPrimary` and the round-trip lemmas rely on this assumption.

=== FILE: filestore.dfy ===
/** The files the database reads and writes, abstracted from their bytes:
    a store maps each path to a pickled data map, a pickled header, or the
    empty file left behind when a write was opened but its dump raised. */
module FileStore {
  import opened Outcomes

  type Path = string

  /** An MD5 digest. The source compares the `str()` forms of two digests,
      which agree exactly when the digests do. */
  type Digest = seq<bv8>

  /** The header record: where the data file is, and its checksum. */
  datatype Header = Header(data: Path, md5sum: Digest)

  datatype FileContent<K(==), V> =
    | DataFile(entries: map<K, V>)
    | HeaderFile(header: Header)
    | Truncated

  type Store<K(==), V> = map<Path, FileContent<K, V>>

  /** The MD5 of a file's bytes, as a function of what the file holds. */
  type Checksum<!K(==), !V> = FileContent<K, V> -> Digest

  /** Reading and unpickling a header file. */
  function ReadHeader<K(==), V>(fs: Store<K, V>, p: Path): (r: Result<Header>)
    ensures r.Ok? <==> p in fs && fs[p].HeaderFile?
    ensures r.Ok? ==> fs[p] == HeaderFile(r.value)
    ensures r.Err? ==> r.error == ReadError(fs, p)
  {
    if p !in fs then Err(FileNotFound)
    else match fs[p]
      case HeaderFile(h) => Ok(h)
      case Truncated => Err(EOFError)
      case _ => Err(UnpicklingError)
  }

  /** Reading and unpickling a data file. */
  function ReadData<K(==), V>(fs: Store<K, V>, p: Path): (r: Result<map<K, V>>)
    ensures r.Ok? <==> p in fs && fs[p].DataFile?
    ensures r.Ok? ==> fs[p] == DataFile(r.value)
    ensures r.Err? ==> r.error == ReadError(fs, p)
  {
    if p !in fs then Err(FileNotFound)
    else match fs[p]
      case DataFile(m) => Ok(m)
      case Truncated => Err(EOFError)
      case _ => Err(UnpicklingError)
  }

  /** Why loading `p` fails when it does not hold the record wanted: the file
      is absent, empty, or holds the other kind of record. */
  function ReadError<K(==), V>(fs: Store<K, V>, p: Path): Error
  {
    if p !in fs then FileNotFound
    else if fs[p].Truncated? then EOFError
    else UnpicklingError
  }

  /** Checksumming the file at `p`, which must exist. */
  function FileDigest<K(==), V>(fs: Store<K, V>, csum: Checksum<K, V>, p: Path): (r: Result<Digest>)
    ensures r.Ok? <==> p in fs
    ensures r.Ok? ==> r.value == csum(fs[p])
    ensures r.Err? ==> r.error == FileNotFound
  {
    if p in fs then Ok(csum(fs[p])) else Err(FileNotFound)
  }

  /** Opening `p` for writing and pickling `data` into it. When there is no
      data to dump, reading the unset data raises after the file was opened,
      so the file is left empty. */
  function Dump<K(==), V>(fs: Store<K, V>, p: Path, data: Option<map<K, V>>): (fs': Store<K, V>)
    ensures WritesOnly(fs, fs', {p})
    ensures p in fs'
    ensures data.Some? <==> fs'[p].DataFile?
    ensures data.Some? ==> fs'[p].entries == data.value
    ensures data.None? ==> fs'[p] == Truncated
  {
    fs[p := if data.Some? then DataFile(data.value) else Truncated]
  }

  /** `fs'` differs from `fs` at most at the paths in `written`. */
  ghost predicate WritesOnly<K, V>(fs: Store<K, V>, fs': Store<K, V>, written: set<Path>)
  {
    && fs'.Keys <= fs.Keys + written
    && forall p :: p in fs && p !in written ==> p in fs' && fs'[p] == fs[p]
  }

  /** The header's checksum is that of the data file it points at. */
  ghost predicate Agrees<K, V>(fs: Store<K, V>, csum: Checksum<K, V>, h: Header)
  {
    h.data in fs && csum(fs[h.data]) == h.md5sum
  }

  /** The random integer a data file name is suffixed with: the source draws
      it from `random.randint(0, 100000000000)`, both ends included. */
  const MaxSuffix: nat := 100000000000
  type Suffix = n: nat | n <= MaxSuffix

  function Digit(d: nat): (c: char)
    requires d < 10
    ensures '0' <= c <= '9'
    ensures c as int - '0' as int == d
  {
    ('0' as int + d) as char
  }

  /** Python's `str(n)` for a natural number: decimal, no leading zero. */
  function Decimal(n: nat): (r: string)
    ensures |r| >= 1
    ensures forall i :: 0 <= i < |r| ==> '0' <= r[i] <= '9'
    ensures r[0] == '0' <==> n == 0
  {
    if n < 10 then [Digit(n)] else Decimal(n / 10) + [Digit(n % 10)]
  }

  /** Reads back a string of decimal digits. */
  function ParseDecimal(s: string): nat
    requires forall i :: 0 <= i < |s| ==> '0' <= s[i] <= '9'
  {
    if |s| == 0 then 0
    else ParseDecimal(s[..|s| - 1]) * 10 + (s[|s| - 1] as int - '0' as int)
  }

  lemma {:induction false} DecimalRoundTrip(n: nat)
    ensures ParseDecimal(Decimal(n)) == n
  {
    if n >= 10 {
      var s := Decimal(n);
      assert s[..|s| - 1] == Decimal(n / 10);
      DecimalRoundTrip(n / 10);
    }
  }

  /** Distinct suffixes render as distinct strings. */
  lemma DecimalInjective(a: nat, b: nat)
    requires Decimal(a) == Decimal(b)
    ensures a == b
  {
    DecimalRoundTrip(a);
    DecimalRoundTrip(b);
  }

  /** The name `loc + str(n) + '.pdata'` under which `create` and
      `commit(loc)` write a data file next to the header path `loc`. */
  function SnapshotPath(loc: Path, n: Suffix): (p: Path)
    ensures |p| > |loc| + 6 && p[..|loc|] == loc
    ensures p[|p| - 6..] == ".pdata"
  {
    loc + Decimal(n) + ".pdata"
  }

  /** A data file name never coincides with the header path it sits next to,
      and two suffixes give two names. */
  lemma SnapshotPathInjective(loc: Path, n1: Suffix, n2: Suffix)
    ensures SnapshotPath(loc, n1) != loc
    ensures SnapshotPath(loc, n1) == SnapshotPath(loc, n2) ==> n1 == n2
  {
    var p1, p2 := SnapshotPath(loc, n1), SnapshotPath(loc, n2);
    if p1 == p2 {
      assert p1[|loc|..|p1| - 6] == Decimal(n1);
      assert p2[|loc|..|p2| - 6] == Decimal(n2);
      DecimalInjective(n1, n2);
    }
  }
}

=== FILE: outcomes.dfy ===
/** Values the database's callers pass and get back: Python's `None`-able
    arguments, and the exceptions a call can raise. */
module Outcomes {

  /** An argument a Python caller may leave as `None`. */
  datatype Option<+T> = None | Some(value: T)

  /** One variant per exception class the database module declares (their
      spelling kept), followed by the built-in Python exceptions that the
      database's own code lets escape. */
  datatype Error =
    | PVerficationError    // verification could not read the data file
    | PVerficationFalse    // the data file's checksum differs from the header's
    | PKeyNotFound         // a `None` key
    | PNoDatabaseGiven     // `open` knows no header path
    | PDatabaseAlreadyOpen
    | PDatabaseNotOpen
    | FileNotFound         // built-in: an absent file opened for reading
    | EOFError             // built-in: unpickling an empty file
    | UnpicklingError      // a file that holds another kind of record than the one being loaded
    | KeyError             // built-in: a dictionary lookup of an absent key
    | AttributeError       // built-in: `header` or `data` read before `open` assigned it
    | TypeError            // built-in: `open(None, 'wb')`

  /** What a call returns, or the exception it raises. */
  datatype Result<+T> = Ok(value: T) | Err(error: Error)
}

=== FILE: pickledb.dfy ===
/** The pickle-backed key/value database: an object holding two flags set at
    construction, the header path, the loaded header, the loaded data map and
    an `opened` flag. Each operation is a pure transition from the object and
    the file store to a new object, a new store and what the call returns or
    raises. An exception does not undo what the call assigned or wrote before
    raising, so a failed step can still carry a changed object or store. */
module PickleDb {
  import opened Outcomes
  import opened FileStore

  datatype Db<K(==), V> = Db(
    verif: bool,              // check the data file's checksum on `open`
    autocommit: bool,         // commit after every assignment
    fileh: Option<Path>,      // the header path
    header: Option<Header>,   // unset until `open` has read a header
    data: Option<map<K, V>>,  // unset until `open` has loaded a data file
    isOpen: bool)

  datatype Step<K(==), V, T> = Step(db: Db<K, V>, fs: Store<K, V>, out: Result<T>)

  /** What every object reachable from the constructor satisfies: a header is
      only read from a known path, and the database is open exactly when its
      data is loaded, which only happens after a header was read. */
  ghost predicate Reachable<K, V>(db: Db<K, V>)
  {
    && (db.header.Some? ==> db.fileh.Some?)
    && (db.isOpen <==> db.data.Some?)
    && (db.isOpen ==> db.header.Some?)
  }

  /** `PickleDatabase(filehand, commit_on_change, verification)`. Both flags
      are on exactly when their argument is `None`: passing any value, even
      `True`, switches them off. */
  function New<K(==), V>(filehand: Option<Path>, commitOnChange: Option<bool>, verification: Option<bool>): (db: Db<K, V>)
    ensures db.verif <==> verification.None?
    ensures db.autocommit <==> commitOnChange.None?
    ensures db.fileh == filehand
    ensures !db.isOpen && db.header.None? && db.data.None?
    ensures Reachable(db)
  {
    Db(verification.None?, commitOnChange.None?, filehand, None, None, false)
  }

  /** The header path `open` uses: its argument when given, else the stored one. */
  function Target<K(==), V>(db: Db<K, V>, filehand: Option<Path>): Option<Path>
  {
    if filehand.Some? then filehand else db.fileh
  }

  /** `__verify(header)`: trusts any header when verification is off, else
      compares the checksum of the data file the header names with the
      header's own. An unreadable data file is reported as a verification
      error rather than a mismatch. */
  function Verify<K(==), V>(db: Db<K, V>, fs: Store<K, V>, csum: Checksum<K, V>, h: Header): (r: Result<bool>)
    ensures !db.verif ==> r == Ok(true)
    ensures db.verif ==> (r.Ok? <==> h.data in fs)
    ensures r.Err? ==> r.error == PVerficationError
    ensures db.verif && r.Ok? ==> (r.value <==> Agrees(fs, csum, h))
  {
    if !db.verif then Ok(true)
    else match FileDigest(fs, csum, h.data)
      case Err(_) => Err(PVerficationError)
      case Ok(d) => Ok(d == h.md5sum)
  }

  /** The store holds, at `p`, a header whose data file exists, holds a data
      map and, when `verif` is set, matches the header's checksum. */
  ghost predicate Loadable<K, V>(fs: Store<K, V>, csum: Checksum<K, V>, verif: bool, p: Option<Path>)
  {
    && p.Some? && p.value in fs && fs[p.value].HeaderFile?
    && var h := fs[p.value].header;
       && h.data in fs && fs[h.data].DataFile?
       && (verif ==> csum(fs[h.data]) == h.md5sum)
  }

  /** `open(filehand)`. */
  function Open<K(==), V>(db: Db<K, V>, fs: Store<K, V>, csum: Checksum<K, V>, filehand: Option<Path>): (s: Step<K, V, bool>)
    ensures s.fs == fs
    // an open database refuses first and is left as it was
    ensures db.isOpen ==> s == Step(db, fs, Err(PDatabaseAlreadyOpen))
    ensures !db.isOpen && Target(db, filehand).None? ==> s == Step(db, fs, Err(PNoDatabaseGiven))
    // the given path replaces the stored one, whatever happens next
    ensures !db.isOpen && Target(db, filehand).Some? ==> s.db.fileh == Target(db, filehand)
    // success exactly when the header's data file loads and, if checked, matches
    ensures s.out.Ok? <==> !db.isOpen && Loadable(fs, csum, db.verif, Target(db, filehand))
    ensures s.out.Ok? ==> s.out.value && s.db.isOpen
    ensures s.out.Ok? ==>
      var h := fs[Target(db, filehand).value].header;
      s.db.header == Some(h) && s.db.data == Some(fs[h.data].entries)
    // a checked mismatch is refused and nothing is loaded
    ensures !db.isOpen && db.verif && Target(db, filehand).Some? && Target(db, filehand).value in fs
            && fs[Target(db, filehand).value].HeaderFile?
            && fs[Target(db, filehand).value].header.data in fs
            && !Agrees(fs, csum, fs[Target(db, filehand).value].header)
            ==> s.out == Err(PVerficationFalse)
    // an unreadable header is reported as the read fails, and no header is kept
    ensures !db.isOpen && Target(db, filehand).Some? && ReadHeader(fs, Target(db, filehand).value).Err? ==>
      s.out == Err(ReadHeader(fs, Target(db, filehand).value).error) && s.db.header == db.header
    // a header read stays assigned, whatever happens next
    ensures !db.isOpen && Target(db, filehand).Some? && ReadHeader(fs, Target(db, filehand).value).Ok? ==>
      s.db.header == Some(ReadHeader(fs, Target(db, filehand).value).value)
    // under verification, a data file that cannot be read is a verification error
    ensures !db.isOpen && db.verif && Target(db, filehand).Some? && ReadHeader(fs, Target(db, filehand).value).Ok?
            && ReadHeader(fs, Target(db, filehand).value).value.data !in fs ==>
      s.out == Err(PVerficationError)
    // a header that passed, whose data file then fails to load, is reported with the load's error
    ensures !db.isOpen && Target(db, filehand).Some? && ReadHeader(fs, Target(db, filehand).value).Ok? ==>
      var h := ReadHeader(fs, Target(db, filehand).value).value;
      (!db.verif || Agrees(fs, csum, h)) && ReadData(fs, h.data).Err? ==> s.out == Err(ReadError(fs, h.data))
    ensures s.out.Err? ==> s.db.isOpen == db.isOpen && s.db.data == db.data
    ensures s.db.verif == db.verif && s.db.autocommit == db.autocommit
    ensures Reachable(db) ==> Reachable(s.db)
  {
    if db.isOpen then Step(db, fs, Err(PDatabaseAlreadyOpen))
    else if Target(db, filehand).None? then Step(db, fs, Err(PNoDatabaseGiven))
    else
      var path := Target(db, filehand).value;
      var db1 := db.(fileh := Some(path));
      match ReadHeader(fs, path)
      case Err(e) => Step(db1, fs, Err(e))
      case Ok(h) =>
        var db2 := db1.(header := Some(h));
        match Verify(db2, fs, csum, h)
        case Err(e) => Step(db2, fs, Err(e))
        case Ok(ok) =>
          if !ok then Step(db2, fs, Err(PVerficationFalse))
          else match ReadData(fs, h.data)
            case Err(e) => Step(db2, fs, Err(e))
            case Ok(m) => Step(db2.(data := Some(m), isOpen := true), fs, Ok(true))
  }

  /** `db[key]`. A `None` key is refused before the open check; an absent
      key raises the built-in `KeyError`. */
  function Get<K(==), V>(db: Db<K, V>, key: Option<K>): (r: Result<V>)
    ensures key.None? ==> r == Err(PKeyNotFound)
    ensures key.Some? && !db.isOpen ==> r == Err(PDatabaseNotOpen)
    ensures r.Ok? ==> db.isOpen && db.data.Some? && key.Some?
                      && key.value in db.data.value && r.value == db.data.value[key.value]
    ensures Reachable(db) && db.isOpen && key.Some? && key.value !in db.data.value ==> r == Err(KeyError)
    ensures Reachable(db) && db.isOpen && key.Some? && key.value in db.data.value ==> r == Ok(db.data.value[key.value])
  {
    if key.None? then Err(PKeyNotFound)
    else if !db.isOpen then Err(PDatabaseNotOpen)
    else if db.data.None? then Err(AttributeError)
    else if key.value !in db.data.value then Err(KeyError)
    else Ok(db.data.value[key.value])
  }

  /** `commit()`: dump the data map over the file the header names, take
      that file's checksum into the in-memory header, then write the header
      to the header path. */
  function CommitPrimary<K(==), V>(db: Db<K, V>, fs: Store<K, V>, csum: Checksum<K, V>): (s: Step<K, V, ()>)
    ensures db.header.None? ==> s == Step(db, fs, Err(AttributeError))
    ensures s.out.Ok? <==> db.header.Some? && db.data.Some? && db.fileh.Some?
    ensures s.out.Err? ==> s.out.error in {AttributeError, TypeError}
    // only the data file and the header file are touched
    ensures db.header.Some? && db.fileh.Some? ==> WritesOnly(fs, s.fs, {db.header.value.data, db.fileh.value})
    // with nothing loaded the data file is still opened for writing, so it is left empty
    ensures db.header.Some? && db.data.None? ==>
      s.out == Err(AttributeError) && s.fs == fs[db.header.value.data := Truncated]
    // reading the unset data raises before the header is touched, so the object is left as it was
    ensures db.data.None? ==> s.db == db
    // the data path is kept, the header on disk is the header in memory
    ensures s.out.Ok? ==> s.db.header.Some? && s.db.header.value.data == db.header.value.data
    ensures s.out.Ok? ==> db.fileh.value in s.fs && s.fs[db.fileh.value] == HeaderFile(s.db.header.value)
    // unless the header is its own data file, the data file holds the map
    // and the header's checksum is that file's
    ensures s.out.Ok? && db.fileh.value != db.header.value.data ==>
      var h := s.db.header.value;
      h.data in s.fs && s.fs[h.data] == DataFile(db.data.value) && Agrees(s.fs, csum, h)
    ensures s.db.data == db.data && s.db.isOpen == db.isOpen && s.db.fileh == db.fileh
    ensures s.db.verif == db.verif && s.db.autocommit == db.autocommit
    ensures Reachable(db) ==> Reachable(s.db)
  {
    if db.header.None? then Step(db, fs, Err(AttributeError))
    else
      var path := db.header.value.data;
      var fs1 := Dump(fs, path, db.data);
      if db.data.None? then Step(db, fs1, Err(AttributeError))
      else
        var h := db.header.value.(md5sum := csum(fs1[path]));
        var db1 := db.(header := Some(h));
        if db.fileh.None? then Step(db1, fs1, Err(TypeError))
        else Step(db1, fs1[db.fileh.value := HeaderFile(h)], Ok(()))
  }

  /** `__commit_loc(loc)`: dump the data map to a fresh `loc + str(n) +
      '.pdata'`, then write to `loc` the in-memory header, which is the same
      object, with its checksum replaced by the new file's. That header still
      names the primary data file, not the new one. */
  function CommitLoc<K(==), V>(db: Db<K, V>, fs: Store<K, V>, csum: Checksum<K, V>, loc: Path, n: Suffix): (s: Step<K, V, ()>)
    // only the new data file and `loc` are touched
    ensures WritesOnly(fs, s.fs, {loc, SnapshotPath(loc, n)})
    ensures s.out.Ok? <==> db.data.Some? && db.header.Some?
    ensures s.out.Err? ==> s.out.error == AttributeError
    ensures db.data.Some? ==> SnapshotPath(loc, n) in s.fs && s.fs[SnapshotPath(loc, n)] == DataFile(db.data.value)
    ensures db.data.None? ==> s.fs == fs[SnapshotPath(loc, n) := Truncated]
    // the header at `loc` checksums the copy but names the primary data file,
    // and the in-memory header now carries the same checksum
    ensures s.out.Ok? ==>
      var h := Header(db.header.value.data, csum(DataFile(db.data.value)));
      loc in s.fs && s.fs[loc] == HeaderFile(h) && s.db.header == Some(h)
    ensures s.out.Err? ==> s.db == db
    ensures s.db.data == db.data && s.db.isOpen == db.isOpen && s.db.fileh == db.fileh
    ensures s.db.verif == db.verif && s.db.autocommit == db.autocommit
    ensures Reachable(db) ==> Reachable(s.db)
  {
    var local := SnapshotPath(loc, n);
    SnapshotPathInjective(loc, n, n);
    var fs1 := Dump(fs, local, db.data);
    if db.data.None? || db.header.None? then Step(db, fs1, Err(AttributeError))
    else
      var h := db.header.value.(md5sum := csum(fs1[local]));
      Step(db.(header := Some(h)), fs1[loc := HeaderFile(h)], Ok(()))
  }

  /** `commit(loc)`: to the primary files when `loc` is `None`, else a
      snapshot at `loc` whose data file carries the suffix `n`. No commit
      changes the data in memory. */
  function Commit<K(==), V>(db: Db<K, V>, fs: Store<K, V>, csum: Checksum<K, V>, loc: Option<Path>, n: Suffix): (s: Step<K, V, ()>)
    ensures loc.Some? ==> WritesOnly(fs, s.fs, {loc.value, SnapshotPath(loc.value, n)})
    // a snapshot succeeds exactly when a header and data are loaded, and then
    // the copy holds the map and `loc` a header under the copy's checksum
    ensures loc.Some? ==> (s.out.Ok? <==> db.data.Some? && db.header.Some?)
    ensures loc.Some? && s.out.Ok? ==>
      && SnapshotPath(loc.value, n) in s.fs && s.fs[SnapshotPath(loc.value, n)] == DataFile(db.data.value)
      && loc.value in s.fs
      && s.fs[loc.value] == HeaderFile(Header(db.header.value.data, csum(DataFile(db.data.value))))
    ensures loc.None? && db.header.Some? && db.fileh.Some? ==>
      WritesOnly(fs, s.fs, {db.header.value.data, db.fileh.value})
    ensures loc.None? && db.header.Some? && db.data.Some? && db.fileh.Some?
            && db.fileh.value != db.header.value.data ==>
      s.out.Ok? && s.db.header.Some? && Agrees(s.fs, csum, s.db.header.value)
    ensures s.db.data == db.data && s.db.isOpen == db.isOpen && s.db.fileh == db.fileh
    ensures Reachable(db) ==> Reachable(s.db)
  {
    if loc.Some? then CommitLoc(db, fs, csum, loc.value, n) else CommitPrimary(db, fs, csum)
  }

  /** `db[key] = value`, followed by `commit()` when autocommit is on. A
      `None` key is refused before the open check. */
  function Set<K(==, !new), V>(db: Db<K, V>, fs: Store<K, V>, csum: Checksum<K, V>, key: Option<K>, value: V): (s: Step<K, V, ()>)
    ensures key.None? ==> s == Step(db, fs, Err(PKeyNotFound))
    ensures key.Some? && !db.isOpen ==> s == Step(db, fs, Err(PDatabaseNotOpen))
    // on an open database the assignment takes effect and touches no other key
    ensures Reachable(db) && db.isOpen && key.Some? ==>
      && s.out.Ok?
      && Get(s.db, key) == Ok(value)
      && forall k :: k != key.value ==> Get(s.db, Some(k)) == Get(db, Some(k))
    ensures !db.autocommit ==> s.fs == fs
    // without autocommit only the map changes; the header stays as it was
    ensures !db.autocommit ==> s.db.header == db.header
    // the commit that autocommit runs writes only the data file and the header file
    ensures Reachable(db) && db.isOpen && key.Some? && db.autocommit ==>
      WritesOnly(fs, s.fs, {db.header.value.data, db.fileh.value})
    // with autocommit the new map is on disk, under a header that agrees with it
    ensures Reachable(db) && db.isOpen && key.Some? && db.autocommit && db.fileh.value != db.header.value.data ==>
      && s.db.header.Some? && s.db.data.Some?
      && var h := s.db.header.value;
         && h.data == db.header.value.data
         && db.fileh.value in s.fs && s.fs[db.fileh.value] == HeaderFile(h)
         && h.data in s.fs && s.fs[h.data] == DataFile(s.db.data.value)
         && Agrees(s.fs, csum, h)
    ensures s.db.isOpen == db.isOpen && s.db.fileh == db.fileh
    ensures s.db.verif == db.verif && s.db.autocommit == db.autocommit
    ensures Reachable(db) ==> Reachable(s.db)
  {
    if key.None? then Step(db, fs, Err(PKeyNotFound))
    else if !db.isOpen then Step(db, fs, Err(PDatabaseNotOpen))
    else if db.data.None? then Step(db, fs, Err(AttributeError))
    else
      var db1 := db.(data := Some(db.data.value[key.value := value]));
      if db1.autocommit then CommitPrimary(db1, fs, csum) else Step(db1, fs, Ok(()))
  }

  /** `create(filename)`: an empty data file under `filename + str(n) +
      '.pdata'` and, at `filename`, a header naming it with its checksum.
      It neither reads nor changes the object. */
  function Create<K(==), V>(fs: Store<K, V>, csum: Checksum<K, V>, filename: Path, n: Suffix): (fs': Store<K, V>)
    ensures WritesOnly(fs, fs', {filename, SnapshotPath(filename, n)})
    ensures filename in fs' && fs'[filename].HeaderFile?
    ensures fs'[filename].header.data == SnapshotPath(filename, n)
    ensures SnapshotPath(filename, n) in fs' && fs'[SnapshotPath(filename, n)] == DataFile(map[])
    ensures Agrees(fs', csum, fs'[filename].header)
  {
    var dataname := SnapshotPath(filename, n);
    SnapshotPathInjective(filename, n, n);
    var fs1 := Dump(fs, dataname, Some(map[]));
    fs1[filename := HeaderFile(Header(dataname, csum(fs1[dataname])))]
  }

  /** `key in db`: membership on an open database; a `None` key is never a
      member. Agrees with `db[key]` succeeding. */
  function Contains<K(==), V>(db: Db<K, V>, key: Option<K>): (r: Result<bool>)
    ensures !db.isOpen <==> r == Err(PDatabaseNotOpen)
    ensures Reachable(db) ==> r.Ok? == db.isOpen
    ensures key.Some? ==> (r == Ok(true) <==> Get(db, key).Ok?)
    ensures key.None? ==> r != Ok(true)
  {
    if !db.isOpen then Err(PDatabaseNotOpen)
    else if db.data.None? then Err(AttributeError)
    else Ok(key.Some? && key.value in db.data.value)
  }

  /** `iter(db)`: the keys of an open database, as a value that later
      assignments cannot change. */
  function Iter<K(==, !new), V>(db: Db<K, V>): (r: Result<set<K>>)
    ensures !db.isOpen <==> r == Err(PDatabaseNotOpen)
    ensures Reachable(db) ==> r.Ok? == db.isOpen
    ensures r.Ok? ==> forall k :: k in r.value <==> Contains(db, Some(k)) == Ok(true)
  {
    if !db.isOpen then Err(PDatabaseNotOpen)
    else if db.data.None? then Err(AttributeError)
    else Ok(db.data.value.Keys)
  }
}

=== FILE: properties.dfy ===
/** Properties that relate several calls on the database: the round trips
    that `commit` and `create` complete with `open`, what verification does
    and does not catch, and what a snapshot commit leaves behind. */
module PickleDbProperties {
  import opened Outcomes
  import opened FileStore
  import opened PickleDb

  /** After `commit()` on an open database whose header is not its own data
      file, a new object opening the same header path gets the same map back,
      whatever flags it was built with. */
  lemma CommitThenOpen<K, V>(db: Db<K, V>, fs: Store<K, V>, csum: Checksum<K, V>,
                                 commitOnChange: Option<bool>, verification: Option<bool>)
    requires Reachable(db) && db.isOpen
    requires db.fileh.value != db.header.value.data
    ensures
      var s := CommitPrimary(db, fs, csum);
      var r := Open(New(None, commitOnChange, verification), s.fs, csum, db.fileh);
      r.out == Ok(true) && r.db.data == db.data && r.db.header == s.db.header
  {
  }

  /** A freshly created database opens, verified or not, to the empty map. */
  lemma CreateThenOpen<K, V>(fs: Store<K, V>, csum: Checksum<K, V>, filename: Path, n: Suffix,
                                 commitOnChange: Option<bool>, verification: Option<bool>)
    ensures
      var r := Open(New(None, commitOnChange, verification), Create(fs, csum, filename, n), csum, Some(filename));
      r.out == Ok(true) && r.db.data == Some(map[])
      && r.db.header == Some(Header(SnapshotPath(filename, n), csum(DataFile(map[]))))
  {
  }

  /** With autocommit on, an assignment is on disk at once: reopening the
      header path reads the assigned value back. */
  lemma SetThenReopen<K(!new), V>(db: Db<K, V>, fs: Store<K, V>, csum: Checksum<K, V>, key: K, value: V)
    requires Reachable(db) && db.isOpen && db.autocommit
    requires db.fileh.value != db.header.value.data
    ensures
      var w := Set(db, fs, csum, Some(key), value);
      var r := Open(New(None, None, None), w.fs, csum, db.fileh);
      w.out.Ok? && r.out.Ok? && Get(r.db, Some(key)) == Ok(value)
  {
  }

  /** `create`, `open`, `db[key] = value` with the default flags, and a
      second object opening the same file reads `value` back. */
  lemma CreateOpenSetReopen<K(!new), V>(fs: Store<K, V>, csum: Checksum<K, V>, filename: Path, n: Suffix,
                                           key: K, value: V)
    ensures
      var o := Open(New(None, None, None), Create(fs, csum, filename, n), csum, Some(filename));
      var w := Set(o.db, o.fs, csum, Some(key), value);
      var r := Open(New(None, None, None), w.fs, csum, Some(filename));
      o.out.Ok? && w.out.Ok? && r.out.Ok? && Get(r.db, Some(key)) == Ok(value)
  {
  }

  /** `commit()` overwrites the data file in place before it rewrites the
      header. Stopping between the two writes leaves the old header naming the
      new data under the old checksum, which a verified `open` refuses. */
  lemma CrashBetweenWrites<K, V>(db: Db<K, V>, fs: Store<K, V>, csum: Checksum<K, V>)
    requires Reachable(db) && db.isOpen
    requires db.fileh.value != db.header.value.data
    requires db.fileh.value in fs && fs[db.fileh.value] == HeaderFile(db.header.value)
    requires csum(DataFile(db.data.value)) != db.header.value.md5sum
    ensures
      var crashed := Dump(fs, db.header.value.data, db.data);
      Open(New(None, None, None), crashed, csum, db.fileh).out == Err(PVerficationFalse)
  {
  }

  /** Replacing the committed data file by one with another checksum is
      caught by a verified `open`; an object built with any `verification`
      argument loads the replacement without complaint. */
  lemma TamperedDataFile<K, V>(db: Db<K, V>, fs: Store<K, V>, csum: Checksum<K, V>,
                                   tampered: map<K, V>, verification: bool)
    requires Reachable(db) && db.isOpen
    requires db.fileh.value != db.header.value.data
    requires csum(DataFile(tampered)) != csum(DataFile(db.data.value))
    ensures
      var s := CommitPrimary(db, fs, csum);
      var fs' := s.fs[db.header.value.data := DataFile(tampered)];
      var checked := Open(New(None, None, None), fs', csum, db.fileh);
      var trusting := Open(New(None, None, Some(verification)), fs', csum, db.fileh);
      && checked.out == Err(PVerficationFalse) && checked.db.data.None?
      && trusting.out == Ok(true) && trusting.db.data == Some(tampered)
  {
  }

  /** The header `commit(loc)` writes names the primary data file under the
      copy's checksum, so opening `loc` reads the primary file, succeeds only
      while that file checksums like the map in memory, and fails once the
      primary file is gone although the copy is intact. */
  lemma SnapshotReadsPrimary<K, V>(db: Db<K, V>, fs: Store<K, V>, csum: Checksum<K, V>, loc: Path, n: Suffix)
    requires Reachable(db) && db.isOpen
    requires loc != db.header.value.data && SnapshotPath(loc, n) != db.header.value.data
    ensures
      var s := CommitLoc(db, fs, csum, loc, n);
      var primary := db.header.value.data;
      var r := Open(New(None, None, None), s.fs, csum, Some(loc));
      && (r.out.Ok? <==> primary in fs && fs[primary].DataFile?
                         && csum(fs[primary]) == csum(DataFile(db.data.value)))
      && (r.out.Ok? ==> r.db.data == Some(fs[primary].entries))
      && (primary !in fs ==> r.out == Err(PVerficationError))
  {
  }

  /** Each snapshot keeps the map of its own time: after `commit(loc)` with
      suffix `n1`, an assignment, and `commit(loc)` with another suffix `n2`,
      the first copy holds the old map and the second the new one. With
      autocommit on, the assignment also commits to the primary files, which
      leaves the first copy alone as long as it is neither of them. */
  lemma SnapshotsKeepEarlierCopies<K(!new), V>(db: Db<K, V>, fs: Store<K, V>, csum: Checksum<K, V>,
                                               loc: Path, n1: Suffix, n2: Suffix, key: K, value: V)
    requires Reachable(db) && db.isOpen
    requires n1 != n2
    requires db.autocommit ==> SnapshotPath(loc, n1) != db.header.value.data && SnapshotPath(loc, n1) != db.fileh.value
    ensures
      var s1 := CommitLoc(db, fs, csum, loc, n1);
      var w := Set(s1.db, s1.fs, csum, Some(key), value);
      var s2 := CommitLoc(w.db, w.fs, csum, loc, n2);
      && SnapshotPath(loc, n1) in s2.fs && s2.fs[SnapshotPath(loc, n1)] == DataFile(db.data.value)
      && SnapshotPath(loc, n2) in s2.fs && s2.fs[SnapshotPath(loc, n2)] == DataFile(db.data.value[key := value])
  {
    // the second dump and header write miss the first copy
    SnapshotPathInjective(loc, n1, n2);
    SnapshotPathInjective(loc, n1, n1);
  }

  /** The checksum `commit(loc)` leaves in the in-memory header does no harm
      to the primary files: a following `commit()` recomputes it, and the
      primary round trip still holds. */
  lemma SnapshotThenCommit<K, V>(db: Db<K, V>, fs: Store<K, V>, csum: Checksum<K, V>, loc: Path, n: Suffix)
    requires Reachable(db) && db.isOpen
    requires db.fileh.value != db.header.value.data
    ensures
      var s1 := CommitLoc(db, fs, csum, loc, n);
      var s2 := CommitPrimary(s1.db, s1.fs, csum);
      var r := Open(New(None, None, None), s2.fs, csum, db.fileh);
      r.out == Ok(true) && r.db.data == db.data
  {
  }

  /** A verified `open` that refuses a mismatched data file has still read
      the header, so a following `commit()` opens the data file for writing
      and fails on the missing data, leaving the file empty; an unverified
      `open` of the same header then fails on the empty file with `EOFError`. */
  lemma FailedOpenThenCommitTruncates<K, V>(fs: Store<K, V>, csum: Checksum<K, V>, filename: Path)
    requires filename in fs && fs[filename].HeaderFile?
    requires fs[filename].header.data != filename
    requires fs[filename].header.data in fs && !Agrees(fs, csum, fs[filename].header)
    ensures
      var o := Open(New(None, None, None), fs, csum, Some(filename));
      var c := CommitPrimary(o.db, o.fs, csum);
      var r := Open(New(None, None, Some(true)), c.fs, csum, Some(filename));
      && o.out == Err(PVerficationFalse)
      && c.out == Err(AttributeError) && c.fs[fs[filename].header.data] == Truncated
      && r.out == Err(EOFError)
  {
  }

  /** A successful `open` is the only one: every later `open` refuses and
      leaves object and store as they were. */
  lemma OpenOnce<K, V>(db: Db<K, V>, fs: Store<K, V>, csum: Checksum<K, V>,
                          filehand: Option<Path>, again: Option<Path>)
    requires !db.isOpen
    requires Open(db, fs, csum, filehand).out.Ok?
    ensures
      var o := Open(db, fs, csum, filehand);
      Open(o.db, o.fs, csum, again) == Step(o.db, o.fs, Err(PDatabaseAlreadyOpen))
  {
  }
}
